=== FILE: README.md ===
# Enquiry notifications of propelity-be, in Dafny

This project models the back end's enquiry-notification pipeline:

- **Enquiry creation.** `createEnquiry` inserts the row. When the stored row has an id, it schedules the Slack notification on a timer. The response does not depend on that notification.
- **Slack notification.** `notifySlackAboutEnquiry` reads the enquiry with its joined user. `formatEnquiryForSlack` renders the fixed message and `sendEnquiryNotificationToSlack` posts it to the webhook.
- **Confirmation emails.** There are two alternative senders with the same entry points. One uses the Mailtrap HTTP API (`mailtrapNotifications.ts`), the other SMTP through Zoho Mail (`mailNotifications.ts`). Both fill the `enquiryReceived` HTML template through `loadTemplate`, but with different data: the Mailtrap sender passes the mapped label under `formattedServiceType`, the SMTP sender the raw code under `serviceType`.
- **Admin authentication.** `authenticateUser` is password sign-in with an admin gate. `verifyToken` is the bearer-token middleware. `signOutUser` signs the user out.

Every call into the outside world becomes a function parameter that returns an outcome datatype. These cover the Supabase queries, the auth client, the Slack webhook POST, `fetch`, nodemailer's `sendMail` and the template file system. Each run records what it sent (posts, requests, messages, token lookups). That record is what lets the contracts say "nothing was sent" or "exactly one request was made". A JavaScript function that "never throws" is a Dafny function whose result type has no error variant. For JavaScript values:

- `null` and `undefined` are both `None`.
- A truthy string is a present, non-empty one.
- `a || b` is `Js.Or`.
- `a || "literal"` is `Js.OrElse`.
- `Js.FirstTruthy` is the independent statement of "the first truthy candidate, else the fallback".

The modules follow the source files: `Js`, `Text` (JavaScript's `indexOf`, global replace and `split`), `TemplateLoader`, `Records`, `SlackWebhook`, `MailtrapNotifications`, `MailNotifications`, `EnquiryNotifications`, `Enquiries` and `Auth`.

Behaviours of the code worth knowing before reading the contracts:

- `formatServiceType("both")` returns "Both Buyer Agent and Mortgage Broker Services".
- A `{{key}}` token whose key is not in the data stays in the text verbatim.
- A missing template makes the email send return `false` with nothing sent; there is no fallback body.
- The Slack message prefers the joined user's name, email and phone over the top-level fields, while the email senders prefer the top-level fields. The Slack message shows the raw service type, not the label.
- The two email senders fill different template keys for the service type. A `{{serviceType}}` token in `enquiryReceived.html` is replaced by the SMTP sender and stays verbatim in the Mailtrap sender's HTML. The HTML file itself is not part of this model, so which key it uses is open.
- `notifySlackAboutEnquiry` notifies Slack only, and each email sender is a separate entry point; no function drives both channels.

## Model

| member | source | states |
|---|---|---|
| TemplateLoader.LoadTemplate | src/notifications/templates/templateLoader.ts:20-45 | Fails exactly when `<name>.html` is missing, with the message "Failed to load email template: <name>". Otherwise the result is the entries' substitutions applied to the file content. |
| TemplateLoader.SubstituteOneEntry | src/notifications/templates/templateLoader.ts:35-38 | One entry cuts the text at every `{{key}}` token and glues the pieces with the value, or with nothing when the value is falsy. |
| TemplateLoader.SubstituteLastEntry | src/notifications/templates/templateLoader.ts:35-38 | Entries apply in order: the last entry rewrites the text produced by the earlier ones. |
| TemplateLoader.SubstituteAppend | src/notifications/templates/templateLoader.ts:35-38 | Substituting two entry lists back to back is substituting their concatenation. |
| TemplateLoader.SubstituteWithoutTokens | src/notifications/templates/templateLoader.ts:35-38 | A template with none of the data's tokens comes back unchanged. |
| TemplateLoader.AbsentKeyTokenKept | src/notifications/templates/templateLoader.ts:35-38 | A token whose key is not in the data survives substitution, whatever the values are. |
| TemplateLoader.AbsentKeyTokensKeptInOrder | src/notifications/templates/templateLoader.ts:35-38 | Any two separate tokens of a key the data does not hold are both still in the result, separate and in their original order: none is dropped or merged. |
| TemplateLoader.ChainedSubstitution | src/notifications/templates/templateLoader.ts:35-38 | A concrete instance of the rule `SubstituteLastEntry` states in general: `{{a}}` with a = `{{b}}`, then b = `x`, gives `x`. |
| TemplateLoader.PlaceholdersDoNotOverlap | src/notifications/templates/templateLoader.ts:36 | Two `{{key}}` tokens with identifier keys that overlap in a text are the same token at the same place. |
| TemplateLoader.ReplaceAllKeepsOtherToken | src/notifications/templates/templateLoader.ts:36-37 | Replacing one key's tokens leaves a token of any other key in the text. |
| Text.ReplaceAllIsJoinOfSplit | src/notifications/templates/templateLoader.ts:37 | A global replace equals splitting on the pattern and joining with the replacement. |
| Text.ReplaceAllWithoutPattern | src/notifications/templates/templateLoader.ts:37 | A text without the pattern is returned unchanged. |
| Text.ReplaceAllKeepsApart | src/notifications/templates/templateLoader.ts:37 | Any occurrence of a pattern that never overlaps the replaced one is still present after the replace. |
| Text.ReplaceAllKeepsTwo | src/notifications/templates/templateLoader.ts:37 | Two successive occurrences of a pattern that never overlaps the replaced one are both kept, in the same order and still separate. |
| Text.IndexOfFirst | src/notifications/templates/templateLoader.ts:37 | The match found is the leftmost one: no occurrence lies before it, and -1 means there is none. |
| Text.JoinSplit | src/auth.ts:47 | Joining the pieces of a `split` with the separator gives back the original string. |
| Text.SplitJoin | src/auth.ts:47 | Splitting on a one-character separator undoes joining with it, when no piece contains the separator: `split` and `join` are inverse on such pieces. |
| Text.SplitLines | src/notifications/slackWebhook.ts:49-57 | Newline-terminated lines that contain no newline split back into those lines plus one trailing empty piece. |
| SlackWebhook.ResolveSlackFields | src/notifications/slackWebhook.ts:44-57 | Name, email and phone are the nested user field, else the top-level field, else "Unknown"/"Not provided". Additional info falls back to "None provided" and state to "Not provided". Service type and budget are shown raw. The timestamp is rendered from `created_at`. No field with a fallback is blank. |
| SlackWebhook.FormatEnquiryForSlack | src/notifications/slackWebhook.ts:42-58 | The message is the lines of the resolved fields (header, blank line, the eight labelled lines in order), each ended by a newline. |
| SlackWebhook.RenderSlackIsLines | src/notifications/slackWebhook.ts:49-57 | The message is the header, a blank line and the eight labelled lines, each ended by a newline. |
| SlackWebhook.SlackMessageLines | src/notifications/slackWebhook.ts:42-58 | For single-line values, splitting the message on newlines gives 11 lines: the header, a blank, `*Label:* value` for each of the eight labels in order, then a trailing empty piece. |
| SlackWebhook.SendEnquiryNotificationToSlack | src/notifications/slackWebhook.ts:65-85 | Posts exactly once, the formatted message. Returns true exactly when that POST succeeds. |
| MailtrapNotifications.FormatServiceType | src/notifications/mailtrapNotifications.ts:23-34 | Known codes map to their labels from the table. Any other string passes through unchanged. |
| MailtrapNotifications.FormatServiceTypeIdempotent | src/notifications/mailtrapNotifications.ts:23-34 | Mapping a mapped value again changes nothing. |
| MailtrapNotifications.FormatServiceTypeFixedPoints | src/notifications/mailtrapNotifications.ts:23-34 | The output equals the input exactly for unknown codes. A non-empty input never maps to an empty output. |
| MailtrapNotifications.EmailTemplateData | src/notifications/mailtrapNotifications.ts:44-58 | The four template entries, in order. First name is the top-level name, else the user's, else "Valued Customer". The service type is the label. The info falls back to "None provided". |
| MailtrapNotifications.SendUserConfirmationEmail | src/notifications/mailtrapNotifications.ts:41-91 | No recipient or a missing template: false, with no request. Otherwise exactly one request: to the top-level email (else the user's), the fixed subject, sender name "Propelity", `MAIL_FROM` (else admin@propelity.com.au), the API token (else empty) and the substituted template. Returns true exactly when the response is ok. |
| MailtrapNotifications.NotifyUserAboutEnquiry | src/notifications/mailtrapNotifications.ts:98-115 | Passes the sender's boolean through. True implies a recipient and a template existed. |
| MailtrapNotifications.HandleNewEnquiryEmailNotification | src/notifications/mailtrapNotifications.ts:121-132 | Never throws. Logs success or failure with the enquiry id, exactly according to the notifier's result. |
| MailNotifications.FromAddress | src/notifications/mailNotifications.ts:88 | `"Propelity" <ZOHO_MAIL_FROM>`, else `<ZOHO_MAIL_USER>`. When the user variable is unset too, the address prints as `<undefined>`. |
| MailNotifications.EmailTemplateData | src/notifications/mailNotifications.ts:64-81 | The four template entries, with the raw service type, the same first-name fallback and "None provided". |
| MailNotifications.SendUserConfirmationEmail | src/notifications/mailNotifications.ts:61-106 | A transporter is created exactly when a recipient exists. No message goes out without a recipient and a template. The one message has the configured sender, the recipient, the subject, the template, the `X-Entity-Ref-ID` = enquiry id and `List-Unsubscribe` headers, high priority and reply-to support@propelity.com.au. Returns true exactly when it is delivered. |
| MailNotifications.NotifyUserAboutEnquiry | src/notifications/mailNotifications.ts:113-131 | Passes the sender's boolean through. True implies a recipient and a template existed. |
| MailNotifications.HandleNewEnquiryEmailNotification | src/notifications/mailNotifications.ts:138-149 | Never throws. Logs success or failure with the enquiry id, exactly according to the notifier's result. |
| MailNotifications.SendersAgreeOnRecipient | src/notifications/mailNotifications.ts:61-106 | For every enquiry and template directory, the SMTP and Mailtrap senders agree on whether a message goes out, on its recipient and on its subject. |
| MailNotifications.MailtrapLeavesServiceTypeToken | src/notifications/mailtrapNotifications.ts:53-58 | When a recipient and the template exist and the template holds `{{serviceType}}`, the Mailtrap request goes out with that token still in its HTML, while the SMTP sender's data does carry a `serviceType` entry. |
| MailNotifications.ChannelsPreferDifferentAddresses | src/notifications/mailNotifications.ts:64 | For every enquiry with both a top-level and a user address, the email goes to the top-level one while Slack shows the user's. |
| EnquiryNotifications.NotifySlackAboutEnquiry | src/notifications/enquiryNotifications.ts:31-69 | A query error, a throw or a missing row gives false with no post. Otherwise the formatted row is posted once and the result is the webhook's success. |
| EnquiryNotifications.HandleNewEnquiryNotification | src/notifications/enquiryNotifications.ts:76-87 | Never throws. Logs "Successfully notified Slack about enquiry <id>" exactly when notification succeeded, and the failure line otherwise. |
| EnquiryNotifications.NotifiedOnlyAfterOnePost | src/notifications/enquiryNotifications.ts:31-69 | The result is true exactly when one post was made and the webhook accepted it. |
| Enquiries.CreateEnquiry | src/enquiries.ts:82-113 | An insert error or a throw gives `{data: null, error}` with nothing scheduled. Otherwise the stored row with a null error. A notification is scheduled exactly when the stored row has a non-empty id, and for that id. |
| Enquiries.CreateEnquiryAndNotify | src/enquiries.ts:98-107 | The response is the creation response. A log line follows exactly when a notification was scheduled. A settled handler's own line is the one kept. A rejected handler is logged as "Error in notification handler: ...". |
| Enquiries.ScheduledSlackLine | src/enquiries.ts:99-105 | With the Slack handler scheduled, the line after the response is that handler's success line for the stored id exactly when Slack was notified, and its failure line otherwise. The `.catch` line never appears. |
| Enquiries.ResponseIndependentOfNotification | src/enquiries.ts:98-107 | Whatever the notification does, the caller gets the same response. |
| Auth.AuthenticateUser | src/auth.ts:10-37 | A throw gives "Authentication failed". A sign-in error is passed through. An empty email gives "No email provided". A signed-in non-admin gets "Access denied: Admin privileges required". Data is returned exactly when sign-in succeeded, the email is non-empty and any returned user is an admin. |
| Auth.BearerToken | src/auth.ts:47 | The token is the first space-separated piece after `Bearer `, and it contains no space. |
| Auth.BearerTokenOfSimpleHeader | src/auth.ts:44-47 | For a token without spaces, the token read from `Bearer <t>` is `t`. |
| Auth.VerifyToken | src/auth.ts:42-73 | No bearer header: 401 "No token provided", with no lookup. Otherwise exactly one lookup of the token. Then 500 on a throw, 401 on an error or no user, 403 for a missing email, 403 for a non-admin. `next` is called with the user exactly when all checks pass. |
| Auth.SameAdminGate | src/auth.ts:24 | For a user with an email, password sign-in succeeds exactly when that user's token passes the middleware: both use the same `isAdmin === true` test. |
| Auth.SignOutUser | src/auth.ts:78-90 | Success exactly when sign-out returned no error. The client's error is passed through, and a throw gives "Sign out failed". |

## Left out

- Module-load configuration: `dotenv` loading and the Slack module's throw when its webhook URL variable is missing. The webhook is a parameter of the model.
- Console output other than each handler's final success or failure line, and the line logged for a rejected notification handler.
- The SMTP transporter's settings (host, port, TLS, timeouts) and its log lines. The model records only whether a transporter was created.
- The HTTP details of the outgoing calls: the Mailtrap URL, method, `Content-Type` header and JSON encoding, and the Slack POST's `{text}` body and headers. Only the fields that vary are modelled.
- The Sydney-time rendering of `created_at` (`toLocaleString`). It is the parameter `localTime`, a function from the stored timestamp to its text.
- The `setTimeout` deferral in `createEnquiry`. The scheduled handler's result is modelled as following the response; its timing is not.
- Supabase error objects. Only an error's presence (and, for auth, its message) is modelled.
- Reading enquiries and users (`getEnquiryById`, `src/users.ts`), the Supabase client, and the test and diagnostic scripts. They are outside the pipeline modelled here.
- TemplateLoader.LoadTemplate: keys must be identifiers, so the `{{key}}` regular expression matches the key literally. The model does not cover keys with metacharacters or a `{n}` quantifier form, `$` replacement patterns in values, or non-string values.
- Auth.VerifyToken: assumes `next()` returns. A synchronous throw from the next handler would be caught and answered with 500 "Authentication error".
- MailtrapNotifications.SendUserConfirmationEmail: a non-ok response's `statusText` only reaches the log, so the model keeps the boolean only.

=== FILE: auth.dfy ===
/**
  Admin authentication (src/auth.ts): the password sign-in with its admin gate,
  the bearer-token middleware and sign-out.

  The identity provider's calls are parameters: `signIn` for the password
  sign-in, `getUser` for the token lookup, and the sign-out outcome. The
  middleware's effect on the HTTP exchange is a verdict: a response with a
  status and message, or a single call of `next` with the user attached.
 */
module Auth {
  import opened Js
  import opened Text

  /** The JavaScript values `user_metadata.isAdmin` may hold. */
  datatype JsValue = JsBool(b: bool) | JsString(s: string) | JsNumber(n: int) | JsNull

  datatype UserMetadata = UserMetadata(isAdmin: Option<JsValue>)

  datatype AuthUser = AuthUser(id: string, email: Option<string>, userMetadata: Option<UserMetadata>)

  /** `user.user_metadata && user.user_metadata.isAdmin === true`: only the boolean `true` passes. */
  predicate IsAdmin(u: AuthUser) {
    u.userMetadata.Some? && u.userMetadata.value.isAdmin == Some(JsBool(true))
  }

  datatype AuthError = AuthError(message: string)

  datatype Session = Session(user: Option<AuthUser>, accessToken: Option<string>)

  datatype SignInOutcome = SignedIn(data: Session, error: Option<AuthError>) | SignInThrew(reason: string)

  /** The `{data, error}` object `authenticateUser` resolves to. */
  datatype AuthResponse = AuthResponse(data: Option<Session>, error: Option<AuthError>)

  /** `authenticateUser(email, password)` */
  function AuthenticateUser(email: string, password: string,
                            signIn: (string, string) -> SignInOutcome): (r: AuthResponse)
    ensures signIn(email, password).SignInThrew? ==> r == AuthResponse(None, Some(AuthError("Authentication failed")))
    ensures signIn(email, password).SignedIn? && signIn(email, password).error.Some? ==>
      r == AuthResponse(None, signIn(email, password).error)
    ensures signIn(email, password).SignedIn? && signIn(email, password).error.None? && email == "" ==>
      r == AuthResponse(None, Some(AuthError("No email provided")))
    ensures (signIn(email, password).SignedIn? && signIn(email, password).error.None? && email != ""
             && signIn(email, password).data.user.Some? && !IsAdmin(signIn(email, password).data.user.value)) ==>
      r == AuthResponse(None, Some(AuthError("Access denied: Admin privileges required")))
    ensures r.data.Some? <==>
      && signIn(email, password).SignedIn? && signIn(email, password).error.None? && email != ""
      && (signIn(email, password).data.user.Some? ==> IsAdmin(signIn(email, password).data.user.value))
    ensures r.data.Some? ==> r == AuthResponse(Some(signIn(email, password).data), None)
    ensures r.data.None? ==> r.error.Some?
  {
    match signIn(email, password)
    case SignInThrew(_) => AuthResponse(None, Some(AuthError("Authentication failed")))
    case SignedIn(data, error) =>
      if error.Some? then AuthResponse(None, error)
      else if email == "" then AuthResponse(None, Some(AuthError("No email provided")))
      else if data.user.Some? && !IsAdmin(data.user.value) then
        AuthResponse(None, Some(AuthError("Access denied: Admin privileges required")))
      else AuthResponse(Some(data), None)
  }

  predicate StartsWith(s: string, prefix: string) {
    |prefix| <= |s| && s[..|prefix|] == prefix
  }

  /** A header that starts with `Bearer ` splits on spaces into `Bearer` and the split of the rest. */
  lemma BearerSegments(header: string)
    requires StartsWith(header, "Bearer ")
    ensures Split(header, " ") == ["Bearer"] + Split(header[7..], " ")
  {
    assert header == "Bearer" + [' '] + header[7..];
    SplitAtFirst("Bearer", ' ', header[7..]);
  }

  /** `authHeader.split(' ')[1]` */
  function BearerToken(header: string): (token: string)
    requires StartsWith(header, "Bearer ")
    ensures token == Split(header[7..], " ")[0]
    ensures ' ' !in token
  {
    BearerSegments(header);
    SplitPiecesAvoidSeparator(header[7..], " ");
    CharOfContains(Split(header[7..], " ")[0], ' ');
    Split(header, " ")[1]
  }

  /** The token of `Bearer <t>` is `t` itself when `t` holds no space. */
  lemma BearerTokenOfSimpleHeader(t: string)
    requires ' ' !in t
    ensures BearerToken("Bearer " + t) == t
  {
    assert ("Bearer " + t)[7..] == t;
    SplitWithoutSeparator(t, ' ');
  }

  datatype GetUserOutcome = GetUser(user: Option<AuthUser>, error: Option<string>) | GetUserThrew(reason: string)

  /** The middleware's effect: a response, or `next()` called once with `req.user` set. */
  datatype Verdict = Respond(status: int, message: string) | Next(user: AuthUser)

  /** The verdict and the tokens looked up, in order. */
  datatype VerifyRun = VerifyRun(verdict: Verdict, lookups: seq<string>)

  predicate HasBearer(authorization: Option<string>) {
    Truthy(authorization) && StartsWith(authorization.value, "Bearer ")
  }

  /** `verifyToken(req, res, next)` */
  function VerifyToken(authorization: Option<string>, getUser: string -> GetUserOutcome): (run: VerifyRun)
    ensures !HasBearer(authorization) ==> run == VerifyRun(Respond(401, "No token provided"), [])
    ensures HasBearer(authorization) ==>
      var token := BearerToken(authorization.value);
      var o := getUser(token);
      && run.lookups == [token]
      && (o.GetUserThrew? ==> run.verdict == Respond(500, "Authentication error"))
      && (o.GetUser? && (o.error.Some? || o.user.None?) ==> run.verdict == Respond(401, "Invalid or expired token"))
      && (o.GetUser? && o.error.None? && o.user.Some? && !Truthy(o.user.value.email) ==>
            run.verdict == Respond(403, "No email found in user profile"))
      && (o.GetUser? && o.error.None? && o.user.Some? && Truthy(o.user.value.email) && !IsAdmin(o.user.value) ==>
            run.verdict == Respond(403, "Access denied: Admin privileges required"))
      && (run.verdict.Next? <==> o.GetUser? && o.error.None? && o.user.Some?
                                 && Truthy(o.user.value.email) && IsAdmin(o.user.value))
      && (run.verdict.Next? ==> run.verdict.user == o.user.value)
    ensures run.verdict.Respond? ==> run.verdict.status in {401, 403, 500}
  {
    if !HasBearer(authorization) then VerifyRun(Respond(401, "No token provided"), [])
    else
      var token := BearerToken(authorization.value);
      var verdict :=
        match getUser(token)
        case GetUserThrew(_) => Respond(500, "Authentication error")
        case GetUser(user, error) =>
          if error.Some? || user.None? then Respond(401, "Invalid or expired token")
          else if !Truthy(user.value.email) then Respond(403, "No email found in user profile")
          else if !IsAdmin(user.value) then Respond(403, "Access denied: Admin privileges required")
          else Next(user.value);
      VerifyRun(verdict, [token])
  }

  /**
    Sign-in and the middleware apply the same admin test: for a user with an
    email, the password sign-in succeeds exactly when a token for that user
    passes the middleware.
   */
  lemma SameAdminGate(email: string, password: string, token: string, u: AuthUser, accessToken: Option<string>)
    requires email != "" && Truthy(u.email)
    ensures var signIn := (x: string, y: string) => SignedIn(Session(Some(u), accessToken), None);
            var getUser := (t: string) => GetUser(Some(u), None);
      AuthenticateUser(email, password, signIn).data.Some?
      <==> VerifyToken(Some("Bearer " + token), getUser).verdict.Next?
  {
    assert StartsWith("Bearer " + token, "Bearer ") by {
      assert ("Bearer " + token)[..7] == "Bearer ";
    }
  }

  datatype SignOutOutcome = SignedOut(error: Option<AuthError>) | SignOutThrew(reason: string)

  /** The `{success, error}` object `signOutUser` resolves to. */
  datatype SignOutResponse = SignOutResponse(success: bool, error: Option<AuthError>)

  /** `signOutUser()` */
  function SignOutUser(outcome: SignOutOutcome): (r: SignOutResponse)
    ensures r.success <==> outcome == SignedOut(None)
    ensures r.success <==> r.error.None?
    ensures outcome.SignedOut? && outcome.error.Some? ==> r.error == outcome.error
    ensures outcome.SignOutThrew? ==> r.error == Some(AuthError("Sign out failed"))
  {
    match outcome
    case SignOutThrew(_) => SignOutResponse(false, Some(AuthError("Sign out failed")))
    case SignedOut(error) =>
      if error.Some? then SignOutResponse(false, error) else SignOutResponse(true, None)
  }
}

=== FILE: enquiries.dfy ===
/**
  Enquiry creation (src/enquiries.ts, `createEnquiry`): insert the row, return
  `{data, error}`, and when the stored row has an id, schedule the Slack
  notification for it on a timer so that it runs after the response is built.

  `insert` stands for the insert-and-select call: the `{data, error}` pair it
  resolves to, or the exception it throws.
 */
module Enquiries {
  import opened Js
  import opened Records
  import SlackWebhook
  import EnquiryNotifications

  datatype InsertOutcome = Inserted(data: Option<EnquiryRecord>, error: Option<string>) | InsertThrew(reason: string)

  /** The `{data, error}` object `createEnquiry` resolves to. */
  datatype CreateResponse = CreateResponse(data: Option<EnquiryRecord>, error: Option<string>)

  /** The response and the enquiry id a notification was scheduled for, if any. */
  datatype Creation = Creation(response: CreateResponse, scheduled: Option<string>)

  /** `createEnquiry(enquiry)` */
  function CreateEnquiry(insert: InsertOutcome): (c: Creation)
    ensures insert.InsertThrew? ==> c == Creation(CreateResponse(None, Some(insert.reason)), None)
    ensures insert.Inserted? && insert.error.Some? ==> c == Creation(CreateResponse(None, insert.error), None)
    ensures insert.Inserted? && insert.error.None? ==> c.response == CreateResponse(insert.data, None)
    ensures c.scheduled.Some? <==>
      insert.Inserted? && insert.error.None? && insert.data.Some? && insert.data.value.id != ""
    ensures c.scheduled.Some? ==> c.scheduled.value == insert.data.value.id
    ensures c.response.error.None? <==> insert.Inserted? && insert.error.None?
  {
    match insert
    case InsertThrew(reason) => Creation(CreateResponse(None, Some(reason)), None)
    case Inserted(data, error) =>
      if error.Some? then Creation(CreateResponse(None, error), None)
      else
        var scheduled := if data.Some? && data.value.id != "" then Some(data.value.id) else None;
        Creation(CreateResponse(data, None), scheduled)
  }

  /** How the scheduled `handleNewEnquiryNotification(id)` promise settles. */
  datatype NotificationOutcome = Settled(log: LogLine) | Rejected(reason: string)

  /**
    The whole observable run: the response, then the console line the timer task
    leaves, its rejection caught by `.catch` and logged.
   */
  function CreateEnquiryAndNotify(insert: InsertOutcome, notify: string -> NotificationOutcome)
    : (r: (CreateResponse, Option<LogLine>))
    ensures r.0 == CreateEnquiry(insert).response
    ensures r.1.Some? <==> CreateEnquiry(insert).scheduled.Some?
    ensures r.1.Some? && notify(CreateEnquiry(insert).scheduled.value).Rejected? ==>
      r.1.value == Error("Error in notification handler: " + notify(CreateEnquiry(insert).scheduled.value).reason)
    ensures r.1.Some? && notify(CreateEnquiry(insert).scheduled.value).Settled? ==>
      r.1.value == notify(CreateEnquiry(insert).scheduled.value).log
  {
    var c := CreateEnquiry(insert);
    var afterwards :=
      match c.scheduled
      case None => None
      case Some(id) =>
        match notify(id)
        case Settled(log) => Some(log)
        case Rejected(reason) => Some(Error("Error in notification handler: " + reason));
    (c.response, afterwards)
  }

  /** Whatever the notification does, the caller receives the same response. */
  lemma ResponseIndependentOfNotification(insert: InsertOutcome,
                                          n1: string -> NotificationOutcome, n2: string -> NotificationOutcome)
    ensures CreateEnquiryAndNotify(insert, n1).0 == CreateEnquiryAndNotify(insert, n2).0
  {
  }

  /**
    With the real Slack handler scheduled, the line left after the response is
    that handler's success or failure line for the stored id; since the handler
    never rejects, the `.catch` line never appears.
   */
  lemma ScheduledSlackLine(insert: InsertOutcome, store: string -> EnquiryNotifications.QueryOutcome,
                           localTime: string -> string, webhook: string -> SlackWebhook.PostOutcome)
    ensures var notify := (id: string) => Settled(EnquiryNotifications.HandleNewEnquiryNotification(id, store, localTime, webhook));
            var r := CreateEnquiryAndNotify(insert, notify);
      && (r.1.Some? <==> CreateEnquiry(insert).scheduled.Some?)
      && (r.1.Some? ==>
            var id := CreateEnquiry(insert).scheduled.value;
            && (r.1.value.Info? <==> EnquiryNotifications.NotifySlackAboutEnquiry(id, store, localTime, webhook).sent)
            && (r.1.value.Info? ==> r.1.value.text == "Successfully notified Slack about enquiry " + id)
            && (r.1.value.Error? ==> r.1.value.text == "Failed to notify Slack about enquiry " + id))
  {
  }
}

=== FILE: enquiry_notifications.dfy ===
/**
  The Slack notification for a stored enquiry
  (src/notifications/enquiryNotifications.ts): fetch the enquiry row with its
  joined user, then hand it to the Slack sender.

  `store` stands for the `enquiries` query by id: the `{data, error}` pair it
  resolves to, or the exception it throws.
 */
module EnquiryNotifications {
  import opened Js
  import opened Records
  import opened SlackWebhook

  datatype QueryOutcome = Query(data: Option<EnquiryRecord>, error: Option<string>) | QueryThrew(reason: string)

  /** `notifySlackAboutEnquiry(enquiryId)` */
  function NotifySlackAboutEnquiry(enquiryId: string, store: string -> QueryOutcome,
                                   localTime: string -> string, webhook: string -> PostOutcome): (run: SlackRun)
    ensures store(enquiryId).QueryThrew? ==> run == SlackRun(false, [])
    ensures store(enquiryId).Query? && store(enquiryId).error.Some? ==> run == SlackRun(false, [])
    ensures store(enquiryId) == Query(None, None) ==> run == SlackRun(false, [])
    ensures run.posts != [] <==> store(enquiryId).Query? && store(enquiryId).error.None? && store(enquiryId).data.Some?
    ensures run.posts != [] ==>
      && run.posts == [FormatEnquiryForSlack(store(enquiryId).data.value, localTime)]
      && (run.sent <==> webhook(run.posts[0]).Posted?)
  {
    match store(enquiryId)
    case QueryThrew(_) => SlackRun(false, [])
    case Query(data, error) =>
      if error.Some? then SlackRun(false, [])
      else if data.None? then SlackRun(false, [])
      else SendEnquiryNotificationToSlack(data.value, localTime, webhook)
  }

  /** `handleNewEnquiryNotification(enquiryId)`: logs the outcome and never throws. */
  function HandleNewEnquiryNotification(enquiryId: string, store: string -> QueryOutcome,
                                        localTime: string -> string, webhook: string -> PostOutcome): (log: LogLine)
    ensures log.Info? <==> NotifySlackAboutEnquiry(enquiryId, store, localTime, webhook).sent
    ensures log.Info? ==> log.text == "Successfully notified Slack about enquiry " + enquiryId
    ensures log.Error? ==> log.text == "Failed to notify Slack about enquiry " + enquiryId
  {
    if NotifySlackAboutEnquiry(enquiryId, store, localTime, webhook).sent then
      Info("Successfully notified Slack about enquiry " + enquiryId)
    else
      Error("Failed to notify Slack about enquiry " + enquiryId)
  }

  /** The Slack result is true only when the row was found and the one POST succeeded. */
  lemma NotifiedOnlyAfterOnePost(enquiryId: string, store: string -> QueryOutcome,
                                 localTime: string -> string, webhook: string -> PostOutcome)
    ensures var run := NotifySlackAboutEnquiry(enquiryId, store, localTime, webhook);
      run.sent <==> |run.posts| == 1 && webhook(run.posts[0]).Posted?
  {
  }
}

=== FILE: js.dfy ===
/**
  JavaScript value conventions the notification code relies on.

  `null` and `undefined` are both modelled as `None`; a JavaScript function that
  either returns or throws is modelled as a `Result`. Truthiness of an optional
  string is "present and non-empty", which is what `x || y` and `!x` test.
 */
module Js {

  datatype Option<+T> = None | Some(value: T)

  /** The outcome of a call that may throw: `Ok` is a normal return, `Err` a thrown error. */
  datatype Result<+T, +E> = Ok(value: T) | Err(error: E)

  /** A console line: `console.log` or `console.error`. */
  datatype LogLine = Info(text: string) | Error(text: string)

  /** JavaScript truthiness of a string that may be `null` or `undefined`. */
  predicate Truthy(v: Option<string>) {
    v.Some? && v.value != ""
  }

  /** `a || b` on optional strings: the first operand when truthy, else the second, whatever it is. */
  function Or(a: Option<string>, b: Option<string>): (r: Option<string>)
    ensures Truthy(a) ==> r == a
    ensures !Truthy(a) ==> r == b
    ensures Truthy(r) <==> Truthy(a) || Truthy(b)
  {
    if Truthy(a) then a else b
  }

  /** `a || "literal"` with a non-empty literal: the result is never blank. */
  function OrElse(a: Option<string>, fallback: string): (r: string)
    ensures Truthy(a) ==> r == a.value
    ensures !Truthy(a) ==> r == fallback
    ensures fallback != "" ==> r != ""
  {
    if Truthy(a) then a.value else fallback
  }

  /**
    `v` is what `a || b || fallback` yields: the first truthy candidate, tried in
    that order, else the fallback.
   */
  ghost predicate FirstTruthy(v: string, a: Option<string>, b: Option<string>, fallback: string) {
    if Truthy(a) then v == a.value
    else if Truthy(b) then v == b.value
    else v == fallback
  }

  /** A string interpolated into a template literal: an absent value prints as `undefined`. */
  function Interpolate(v: Option<string>): string {
    match v
    case Some(s) => s
    case None => "undefined"
  }
}

=== FILE: mail_notifications.dfy ===
/**
  The confirmation email sent over SMTP through Zoho Mail
  (src/notifications/mailNotifications.ts).

  The recipient and first name prefer the top-level fields over the joined user
  row; the template receives the raw service type. The transporter is created
  only once a recipient is known, and `transport` stands for its `sendMail`,
  from the message to the delivery or the rejection.
 */
module MailNotifications {
  import opened Js
  import opened Records
  import opened TemplateLoader
  import SlackWebhook
  import MailtrapNotifications
  import Text

  /** The process environment the sender reads for the sender address. */
  datatype MailConfig = MailConfig(mailFrom: Option<string>, mailUser: Option<string>)

  /** The message handed to `transporter.sendMail`. */
  datatype MailMessage = MailMessage(
    from: string,
    to: string,
    subject: string,
    html: string,
    headers: seq<(string, string)>,
    priority: string,
    replyTo: string)

  datatype TransportOutcome = Delivered(messageId: string) | Rejected(reason: string)

  /** What one send did: its result, whether a transporter was created, and the messages handed to it. */
  datatype MailRun = MailRun(sent: bool, transporterCreated: bool, messages: seq<MailMessage>)

  const TemplateName := "enquiryReceived"
  const Subject := "Your Enquiry Has Been Received"
  const ReplyTo := "support@propelity.com.au"
  const Unsubscribe := "<mailto:unsubscribe@propelity.com.au>"

  /** `enquiryData.email || enquiryData.user?.email` */
  function Recipient(e: EnquiryRecord): Option<string> {
    Or(e.email, e.UserEmail())
  }

  /** `"Propelity" <${ZOHO_MAIL_FROM || ZOHO_MAIL_USER}>`, where an unset variable prints as `undefined`. */
  function FromAddress(config: MailConfig): (from: string)
    ensures Truthy(config.mailFrom) ==> from == "\"Propelity\" <" + config.mailFrom.value + ">"
    ensures !Truthy(config.mailFrom) && config.mailUser.Some? ==> from == "\"Propelity\" <" + config.mailUser.value + ">"
    ensures !Truthy(config.mailFrom) && config.mailUser.None? ==> from == "\"Propelity\" <undefined>"
  {
    "\"Propelity\" <" + Interpolate(Or(config.mailFrom, config.mailUser)) + ">"
  }

  /** The template's keys are identifiers. */
  lemma TemplateKeysPlain()
    ensures PlainKey("firstName") && PlainKey("serviceType") && PlainKey("budgetRange") && PlainKey("additionalInfo")
  {
    assert PlainKey("firstName");
    assert PlainKey("serviceType");
    assert PlainKey("budgetRange");
    assert PlainKey("additionalInfo");
  }

  /** The template data object (typed `EnquiryReceivedTemplateData`), in the order its keys are written. */
  function EmailTemplateData(e: EnquiryRecord): (data: seq<Entry>)
    ensures PlainKeys(data)
    ensures |data| == 4
    ensures data[0].key == "firstName" && data[0].value.Some?
         && FirstTruthy(data[0].value.value, e.firstName, e.UserFirstName(), "Valued Customer")
    ensures data[1] == Entry("serviceType", Some(e.serviceType))
    ensures data[2] == Entry("budgetRange", Some(e.budgetRange))
    ensures data[3].key == "additionalInfo" && data[3].value.Some?
         && FirstTruthy(data[3].value.value, e.additionalInfo, None, "None provided")
  {
    TemplateKeysPlain();
    [Entry("firstName", Some(OrElse(Or(e.firstName, e.UserFirstName()), "Valued Customer"))),
     Entry("serviceType", Some(e.serviceType)),
     Entry("budgetRange", Some(e.budgetRange)),
     Entry("additionalInfo", Some(OrElse(e.additionalInfo, "None provided")))]
  }

  /** `sendUserConfirmationEmail(enquiryData)` */
  function SendUserConfirmationEmail(e: EnquiryRecord, config: MailConfig, files: map<string, string>,
                                     transport: MailMessage -> TransportOutcome): (run: MailRun)
    ensures !Truthy(Recipient(e)) ==> run == MailRun(false, false, [])
    ensures run.transporterCreated <==> Truthy(Recipient(e))
    ensures TemplateName + ".html" !in files ==> !run.sent && run.messages == []
    ensures |run.messages| <= 1
    ensures run.messages != [] <==> Truthy(Recipient(e)) && TemplateName + ".html" in files
    ensures run.messages != [] ==>
      var m := run.messages[0];
      && FirstTruthy(m.to, e.email, e.UserEmail(), "") && m.to != ""
      && m.subject == Subject
      && m.from == FromAddress(config)
      && m.replyTo == ReplyTo
      && m.priority == "high"
      && m.headers == [("X-Entity-Ref-ID", e.id), ("List-Unsubscribe", Unsubscribe)]
      && m.html == Substitute(files[TemplateName + ".html"], EmailTemplateData(e))
    ensures run.sent <==> run.messages != [] && transport(run.messages[0]).Delivered?
  {
    var email := Recipient(e);
    if !Truthy(email) then MailRun(false, false, [])
    else
      match LoadTemplate(TemplateName, files, EmailTemplateData(e))
      case Err(_) => MailRun(false, true, [])
      case Ok(html) =>
        var m := MailMessage(FromAddress(config), email.value, Subject, html,
                             [("X-Entity-Ref-ID", e.id), ("List-Unsubscribe", Unsubscribe)], "high", ReplyTo);
        MailRun(transport(m).Delivered?, true, [m])
  }

  /** `notifyUserAboutEnquiry(enquiryData)`: the sender's boolean, unchanged. */
  function NotifyUserAboutEnquiry(e: EnquiryRecord, config: MailConfig, files: map<string, string>,
                                  transport: MailMessage -> TransportOutcome): (sent: bool)
    ensures sent ==> Truthy(Recipient(e)) && TemplateName + ".html" in files
    ensures sent <==> SendUserConfirmationEmail(e, config, files, transport).sent
  {
    SendUserConfirmationEmail(e, config, files, transport).sent
  }

  /** `handleNewEnquiryEmailNotification(enquiryData)`: logs the outcome and never throws. */
  function HandleNewEnquiryEmailNotification(e: EnquiryRecord, config: MailConfig, files: map<string, string>,
                                             transport: MailMessage -> TransportOutcome): (log: LogLine)
    ensures log.Info? <==> NotifyUserAboutEnquiry(e, config, files, transport)
    ensures log.Info? ==> log.text == "Successfully sent user confirmation email for enquiry " + e.id
    ensures log.Error? ==> log.text == "Failed to send user confirmation email for enquiry " + e.id
  {
    if NotifyUserAboutEnquiry(e, config, files, transport) then
      Info("Successfully sent user confirmation email for enquiry " + e.id)
    else
      Error("Failed to send user confirmation email for enquiry " + e.id)
  }

  /**
    The two channels resolve the address in opposite orders: with both a
    top-level and a joined-user address, Slack shows the user's while the email
    goes to the top-level one, for every enquiry.
   */
  lemma ChannelsPreferDifferentAddresses(e: EnquiryRecord, localTime: string -> string, config: MailConfig,
                                         files: map<string, string>, transport: MailMessage -> TransportOutcome)
    requires Truthy(e.email) && Truthy(e.UserEmail())
    ensures SlackWebhook.ResolveSlackFields(e, localTime).email == e.UserEmail().value
    ensures Recipient(e) == e.email
    ensures SendUserConfirmationEmail(e, config, files, transport).messages != [] ==>
      SendUserConfirmationEmail(e, config, files, transport).messages[0].to == e.email.value
  {
  }

  /**
    The SMTP and the Mailtrap senders agree on whether a confirmation goes out
    at all, to whom, and with which subject, for every enquiry and template directory.
   */
  lemma SendersAgreeOnRecipient(e: EnquiryRecord, config: MailConfig, env: MailtrapNotifications.MailtrapEnv,
                                files: map<string, string>, transport: MailMessage -> TransportOutcome,
                                fetch: MailtrapNotifications.MailtrapRequest -> MailtrapNotifications.FetchOutcome)
    ensures var smtp := SendUserConfirmationEmail(e, config, files, transport);
            var api := MailtrapNotifications.SendUserConfirmationEmail(e, env, files, fetch);
      && (smtp.messages != [] <==> api.requests != [])
      && (smtp.messages != [] ==> smtp.messages[0].to == api.requests[0].to)
      && (smtp.messages != [] ==> smtp.messages[0].subject == api.requests[0].subject)
  {
  }

  /**
    The two senders fill different template keys: this one `serviceType`, the
    Mailtrap sender `formattedServiceType`. A `{{serviceType}}` token in the
    shared template is therefore still in the HTML the Mailtrap sender posts.
   */
  lemma MailtrapLeavesServiceTypeToken(e: EnquiryRecord, env: MailtrapNotifications.MailtrapEnv,
                                       files: map<string, string>,
                                       fetch: MailtrapNotifications.MailtrapRequest -> MailtrapNotifications.FetchOutcome)
    requires Truthy(Recipient(e)) && TemplateName + ".html" in files
    requires Text.Contains(files[TemplateName + ".html"], Placeholder("serviceType"))
    ensures EmailTemplateData(e)[1].key == "serviceType"
    ensures var api := MailtrapNotifications.SendUserConfirmationEmail(e, env, files, fetch);
      api.requests != [] && Text.Contains(api.requests[0].html, Placeholder("serviceType"))
  {
    var data := MailtrapNotifications.EmailTemplateData(e);
    assert PlainKey("serviceType") by {
      assert forall i :: 0 <= i < |"serviceType"| ==> IsKeyChar("serviceType"[i]);
    }
    AbsentKeyTokenKept(files[TemplateName + ".html"], data, "serviceType");
  }
}

=== FILE: mailtrap_notifications.dfy ===
/**
  The confirmation email sent through the Mailtrap HTTP API
  (src/notifications/mailtrapNotifications.ts).

  The recipient and first name prefer the top-level fields over the joined user
  row. The environment variables the sender reads are a record, the template
  directory a map from file name to content, and `fetch` a function from the
  request to the response or the network error.
 */
module MailtrapNotifications {
  import opened Js
  import opened Records
  import opened TemplateLoader

  /** The service codes and their display labels. */
  const ServiceLabels: map<string, string> := map[
    "both" := "Both Buyer Agent and Mortgage Broker Services",
    "buyer_agent" := "Buyer Agent Services",
    "mortgage_broker" := "Mortgage Broker Services"]

  /** `formatServiceType(serviceType)` */
  function FormatServiceType(serviceType: string): (shown: string)
    ensures serviceType in ServiceLabels ==> shown == ServiceLabels[serviceType]
    ensures serviceType !in ServiceLabels ==> shown == serviceType
  {
    match serviceType
    case "both" => "Both Buyer Agent and Mortgage Broker Services"
    case "buyer_agent" => "Buyer Agent Services"
    case "mortgage_broker" => "Mortgage Broker Services"
    case _ => serviceType
  }

  /** No label is itself a code, so mapping twice is mapping once. */
  lemma FormatServiceTypeIdempotent(serviceType: string)
    ensures FormatServiceType(FormatServiceType(serviceType)) == FormatServiceType(serviceType)
  {
    var shown := FormatServiceType(serviceType);
    assert shown !in ServiceLabels by {
      assert ServiceLabels.Keys == {"both", "buyer_agent", "mortgage_broker"};
      if serviceType in ServiceLabels {
        assert shown in ServiceLabels.Values by {
          assert ServiceLabels[serviceType] in ServiceLabels.Values;
        }
        assert ServiceLabels.Values == {"Both Buyer Agent and Mortgage Broker Services",
                                         "Buyer Agent Services", "Mortgage Broker Services"};
      }
    }
  }

  /** The mapping leaves exactly the unknown codes unchanged, and never blanks a non-empty input. */
  lemma FormatServiceTypeFixedPoints(serviceType: string)
    ensures FormatServiceType(serviceType) == serviceType <==> serviceType !in ServiceLabels
    ensures serviceType != "" ==> FormatServiceType(serviceType) != ""
  {
  }

  /** The process environment the sender reads. */
  datatype MailtrapEnv = MailtrapEnv(apiToken: Option<string>, mailFrom: Option<string>)

  /** The body and token of the POST to the Mailtrap send endpoint. */
  datatype MailtrapRequest = MailtrapRequest(
    apiToken: string,
    to: string,
    fromEmail: string,
    fromName: string,
    subject: string,
    html: string)

  datatype FetchOutcome = HttpResponse(ok: bool, statusText: string) | NetworkError(reason: string)

  /** What one send did: its boolean result and the requests it made, in order. */
  datatype SendRun = SendRun(sent: bool, requests: seq<MailtrapRequest>)

  const TemplateName := "enquiryReceived"
  const Subject := "Your Enquiry Has Been Received"
  const DefaultFrom := "admin@propelity.com.au"

  /** `enquiryData.email || enquiryData.user?.email` */
  function Recipient(e: EnquiryRecord): Option<string> {
    Or(e.email, e.UserEmail())
  }

  /** The template's keys are identifiers. */
  lemma TemplateKeysPlain()
    ensures PlainKey("firstName") && PlainKey("formattedServiceType") && PlainKey("budgetRange") && PlainKey("additionalInfo")
  {
    assert PlainKey("firstName");
    assert PlainKey("formattedServiceType");
    assert PlainKey("budgetRange");
    assert PlainKey("additionalInfo");
  }

  /** The template data object, in the order its keys are written. */
  function EmailTemplateData(e: EnquiryRecord): (data: seq<Entry>)
    ensures PlainKeys(data)
    ensures |data| == 4
    ensures data[0].key == "firstName" && data[0].value.Some?
         && FirstTruthy(data[0].value.value, e.firstName, e.UserFirstName(), "Valued Customer")
    ensures data[1] == Entry("formattedServiceType", Some(FormatServiceType(e.serviceType)))
    ensures data[2] == Entry("budgetRange", Some(e.budgetRange))
    ensures data[3].key == "additionalInfo" && data[3].value.Some?
         && FirstTruthy(data[3].value.value, e.additionalInfo, None, "None provided")
  {
    TemplateKeysPlain();
    [Entry("firstName", Some(OrElse(Or(e.firstName, e.UserFirstName()), "Valued Customer"))),
     Entry("formattedServiceType", Some(FormatServiceType(e.serviceType))),
     Entry("budgetRange", Some(e.budgetRange)),
     Entry("additionalInfo", Some(OrElse(e.additionalInfo, "None provided")))]
  }

  /** `sendUserConfirmationEmail(enquiryData)` */
  function SendUserConfirmationEmail(e: EnquiryRecord, env: MailtrapEnv, files: map<string, string>,
                                     fetch: MailtrapRequest -> FetchOutcome): (run: SendRun)
    ensures !Truthy(Recipient(e)) ==> run == SendRun(false, [])
    ensures TemplateName + ".html" !in files ==> run == SendRun(false, [])
    ensures |run.requests| <= 1
    ensures run.requests != [] <==> Truthy(Recipient(e)) && TemplateName + ".html" in files
    ensures run.requests != [] ==>
      var req := run.requests[0];
      && FirstTruthy(req.to, e.email, e.UserEmail(), "") && req.to != ""
      && req.subject == Subject
      && req.fromName == "Propelity"
      && FirstTruthy(req.fromEmail, env.mailFrom, None, DefaultFrom)
      && FirstTruthy(req.apiToken, env.apiToken, None, "")
      && req.html == Substitute(files[TemplateName + ".html"], EmailTemplateData(e))
    ensures run.sent <==> run.requests != [] && fetch(run.requests[0]).HttpResponse? && fetch(run.requests[0]).ok
  {
    var email := Recipient(e);
    if !Truthy(email) then SendRun(false, [])
    else
      match LoadTemplate(TemplateName, files, EmailTemplateData(e))
      case Err(_) => SendRun(false, [])
      case Ok(html) =>
        var req := MailtrapRequest(OrElse(env.apiToken, ""), email.value, OrElse(env.mailFrom, DefaultFrom),
                                   "Propelity", Subject, html);
        match fetch(req)
        case HttpResponse(ok, _) => SendRun(ok, [req])
        case NetworkError(_) => SendRun(false, [req])
  }

  /** `notifyUserAboutEnquiry(enquiryData)`: the sender's boolean, unchanged. */
  function NotifyUserAboutEnquiry(e: EnquiryRecord, env: MailtrapEnv, files: map<string, string>,
                                  fetch: MailtrapRequest -> FetchOutcome): (sent: bool)
    ensures sent ==> Truthy(Recipient(e)) && TemplateName + ".html" in files
    ensures sent <==> SendUserConfirmationEmail(e, env, files, fetch).sent
  {
    SendUserConfirmationEmail(e, env, files, fetch).sent
  }

  /** `handleNewEnquiryEmailNotification(enquiryData)`: logs the outcome and never throws. */
  function HandleNewEnquiryEmailNotification(e: EnquiryRecord, env: MailtrapEnv, files: map<string, string>,
                                             fetch: MailtrapRequest -> FetchOutcome): (log: LogLine)
    ensures log.Info? <==> NotifyUserAboutEnquiry(e, env, files, fetch)
    ensures log.Info? ==> log.text == "Successfully sent user confirmation email for enquiry " + e.id
    ensures log.Error? ==> log.text == "Failed to send user confirmation email for enquiry " + e.id
  {
    if NotifyUserAboutEnquiry(e, env, files, fetch) then
      Info("Successfully sent user confirmation email for enquiry " + e.id)
    else
      Error("Failed to send user confirmation email for enquiry " + e.id)
  }
}

=== FILE: records.dfy ===
/**
  The enquiry record the notification code receives: the columns of an
  `enquiries` row, the contact fields some call sites put at the top level, and
  the joined `propelity_users` row under `user`, which may be missing. Every
  field the code reads with `||` or `?.` is optional.
 */
module Records {
  import opened Js

  datatype UserRow = UserRow(
    firstName: Option<string>,
    lastName: Option<string>,
    email: Option<string>,
    phone: Option<string>)

  datatype EnquiryRecord = EnquiryRecord(
    id: string,
    createdAt: string,
    serviceType: string,
    budgetRange: string,
    additionalInfo: Option<string>,
    firstName: Option<string>,
    lastName: Option<string>,
    email: Option<string>,
    phone: Option<string>,
    state: Option<string>,
    user: Option<UserRow>)
  {
    /** `enquiry.user?.first_name` */
    function UserFirstName(): Option<string> {
      if user.Some? then user.value.firstName else None
    }

    /** `enquiry.user?.last_name` */
    function UserLastName(): Option<string> {
      if user.Some? then user.value.lastName else None
    }

    /** `enquiry.user?.email` */
    function UserEmail(): Option<string> {
      if user.Some? then user.value.email else None
    }

    /** `enquiry.user?.phone` */
    function UserPhone(): Option<string> {
      if user.Some? then user.value.phone else None
    }
  }
}

=== FILE: slack_webhook.dfy ===
/**
  The Slack notification (src/notifications/slackWebhook.ts): the enquiry is
  rendered as a fixed eight-line message and posted to the configured webhook.

  Contact fields prefer the joined user row over the top-level fields. The
  submission time is rendered by `localTime`, standing for the locale and time
  zone formatting of `created_at`; the webhook is a function from the posted text
  to the outcome of the POST.
 */
module SlackWebhook {
  import opened Js
  import opened Text
  import opened Records

  /** The values interpolated into the message, after fallbacks. */
  datatype SlackFields = SlackFields(
    firstName: string,
    lastName: string,
    email: string,
    phone: string,
    serviceType: string,
    budgetRange: string,
    additionalInfo: string,
    state: string,
    submitted: string)

  const Header := "*New Enquiry Received*"

  /** The eight labels of the message, bold and colon included, in the order the lines appear. */
  const Labels := ["*Name:* ", "*Email:* ", "*Phone:* ", "*Service Type:* ", "*Budget Range:* ",
                   "*Additional Info:* ", "*State:* ", "*Submitted:* "]

  /** Field resolution: nested user field, then top-level field, then a placeholder. */
  function ResolveSlackFields(e: EnquiryRecord, localTime: string -> string): (f: SlackFields)
    ensures FirstTruthy(f.firstName, e.UserFirstName(), e.firstName, "Unknown")
    ensures FirstTruthy(f.lastName, e.UserLastName(), e.lastName, "Unknown")
    ensures FirstTruthy(f.email, e.UserEmail(), e.email, "Not provided")
    ensures FirstTruthy(f.phone, e.UserPhone(), e.phone, "Not provided")
    ensures FirstTruthy(f.additionalInfo, e.additionalInfo, None, "None provided")
    ensures FirstTruthy(f.state, e.state, None, "Not provided")
    ensures f.serviceType == e.serviceType && f.budgetRange == e.budgetRange
    ensures f.submitted == localTime(e.createdAt)
    ensures f.firstName != "" && f.lastName != "" && f.email != "" && f.phone != ""
    ensures f.additionalInfo != "" && f.state != ""
  {
    SlackFields(
      OrElse(Or(e.UserFirstName(), e.firstName), "Unknown"),
      OrElse(Or(e.UserLastName(), e.lastName), "Unknown"),
      OrElse(Or(e.UserEmail(), e.email), "Not provided"),
      OrElse(Or(e.UserPhone(), e.phone), "Not provided"),
      e.serviceType,
      e.budgetRange,
      OrElse(e.additionalInfo, "None provided"),
      OrElse(e.state, "Not provided"),
      localTime(e.createdAt))
  }

  /** The text after each label, in label order. */
  function LineValues(f: SlackFields): (vs: seq<string>)
    ensures |vs| == |Labels|
  {
    [f.firstName + " " + f.lastName, f.email, f.phone, f.serviceType, f.budgetRange,
     f.additionalInfo, f.state, f.submitted]
  }

  function RenderSlack(f: SlackFields): string {
    "*New Enquiry Received*\n\n" +
    "*Name:* " + f.firstName + " " + f.lastName + "\n" +
    "*Email:* " + f.email + "\n" +
    "*Phone:* " + f.phone + "\n" +
    "*Service Type:* " + f.serviceType + "\n" +
    "*Budget Range:* " + f.budgetRange + "\n" +
    "*Additional Info:* " + f.additionalInfo + "\n" +
    "*State:* " + f.state + "\n" +
    "*Submitted:* " + f.submitted + "\n"
  }

  /** `formatEnquiryForSlack(enquiry)` */
  function FormatEnquiryForSlack(e: EnquiryRecord, localTime: string -> string): (msg: string)
    ensures msg == Lines(MessageLines(ResolveSlackFields(e, localTime)), '\n')
  {
    RenderSlackIsLines(ResolveSlackFields(e, localTime));
    RenderSlack(ResolveSlackFields(e, localTime))
  }

  predicate SingleLine(v: string) {
    '\n' !in v
  }

  function LabelledLine(name: string, value: string): string {
    name + value
  }

  /** The lines of the message, without their terminating newlines. */
  function MessageLines(f: SlackFields): (ls: seq<string>)
    ensures |ls| == |Labels| + 2
  {
    var vs := LineValues(f);
    [Header, "",
     LabelledLine(Labels[0], vs[0]), LabelledLine(Labels[1], vs[1]),
     LabelledLine(Labels[2], vs[2]), LabelledLine(Labels[3], vs[3]),
     LabelledLine(Labels[4], vs[4]), LabelledLine(Labels[5], vs[5]),
     LabelledLine(Labels[6], vs[6]), LabelledLine(Labels[7], vs[7])]
  }

  lemma {:induction false} LinesSnoc(ls: seq<string>, x: string, c: char)
    ensures Lines(ls + [x], c) == Lines(ls, c) + x + [c]
  {
    if |ls| > 0 {
      assert (ls + [x])[1..] == ls[1..] + [x];
      LinesSnoc(ls[1..], x, c);
    } else {
      assert ls + [x] == [x];
    }
  }

  /** Appending one labelled line to a rendered prefix renders one more line. */
  lemma AppendLine(acc: string, ls: seq<string>, name: string, value: string)
    requires acc == Lines(ls, '\n')
    ensures acc + name + value + "\n" == Lines(ls + [LabelledLine(name, value)], '\n')
  {
    LinesSnoc(ls, LabelledLine(name, value), '\n');
  }

  lemma RenderSlackIsLines(f: SlackFields)
    ensures RenderSlack(f) == Lines(MessageLines(f), '\n')
  {
    var vs := LineValues(f);
    var p2 := [Header, ""];
    var m2 := "*New Enquiry Received*\n\n";
    assert m2 == Lines(p2, '\n') by {
      LinesSnoc([], Header, '\n');
      LinesSnoc([Header], "", '\n');
      assert [Header] + [""] == p2;
    }
    var p3 := p2 + [LabelledLine("*Name:* ", vs[0])];
    var m3 := m2 + "*Name:* " + f.firstName + " " + f.lastName + "\n";
    AppendLine(m2, p2, "*Name:* ", vs[0]);
    var p4 := p3 + [LabelledLine("*Email:* ", vs[1])];
    var m4 := m3 + "*Email:* " + f.email + "\n";
    AppendLine(m3, p3, "*Email:* ", vs[1]);
    var p5 := p4 + [LabelledLine("*Phone:* ", vs[2])];
    var m5 := m4 + "*Phone:* " + f.phone + "\n";
    AppendLine(m4, p4, "*Phone:* ", vs[2]);
    var p6 := p5 + [LabelledLine("*Service Type:* ", vs[3])];
    var m6 := m5 + "*Service Type:* " + f.serviceType + "\n";
    AppendLine(m5, p5, "*Service Type:* ", vs[3]);
    var p7 := p6 + [LabelledLine("*Budget Range:* ", vs[4])];
    var m7 := m6 + "*Budget Range:* " + f.budgetRange + "\n";
    AppendLine(m6, p6, "*Budget Range:* ", vs[4]);
    var p8 := p7 + [LabelledLine("*Additional Info:* ", vs[5])];
    var m8 := m7 + "*Additional Info:* " + f.additionalInfo + "\n";
    AppendLine(m7, p7, "*Additional Info:* ", vs[5]);
    var p9 := p8 + [LabelledLine("*State:* ", vs[6])];
    var m9 := m8 + "*State:* " + f.state + "\n";
    AppendLine(m8, p8, "*State:* ", vs[6]);
    var p10 := p9 + [LabelledLine("*Submitted:* ", vs[7])];
    var m10 := m9 + "*Submitted:* " + f.submitted + "\n";
    AppendLine(m9, p9, "*Submitted:* ", vs[7]);
    assert p10 == MessageLines(f);
  }

  lemma LabelledLineSingle(name: string, value: string)
    requires '\n' !in name && SingleLine(value)
    ensures SingleLine(LabelledLine(name, value))
  {
  }

  lemma LabelsSingleLine()
    ensures forall i :: 0 <= i < |Labels| ==> '\n' !in Labels[i]
  {
    forall i | 0 <= i < |Labels|
      ensures '\n' !in Labels[i]
    {
      if i == 0 {} else if i == 1 {} else if i == 2 {} else if i == 3 {}
      else if i == 4 {} else if i == 5 {} else if i == 6 {} else {}
    }
  }

  lemma MessageLinesAt(f: SlackFields, i: int)
    requires 0 <= i < |Labels|
    ensures MessageLines(f)[i + 2] == LabelledLine(Labels[i], LineValues(f)[i])
  {
    if i == 0 {} else if i == 1 {} else if i == 2 {} else if i == 3 {}
    else if i == 4 {} else if i == 5 {} else if i == 6 {} else {}
  }

  lemma MessageLinesSingle(f: SlackFields)
    requires forall v <- LineValues(f) :: SingleLine(v)
    ensures forall k :: 0 <= k < |MessageLines(f)| ==> '\n' !in MessageLines(f)[k]
  {
    var vs := LineValues(f);
    var ls := MessageLines(f);
    LabelsSingleLine();
    forall k | 0 <= k < |ls|
      ensures SingleLine(ls[k])
    {
      if k >= 2 {
        assert vs[k - 2] in vs;
        MessageLinesAt(f, k - 2);
        LabelledLineSingle(Labels[k - 2], vs[k - 2]);
      }
    }
  }

  /**
    Read back line by line, the message is the header, a blank line, then one
    `*Label:* value` line per label in the fixed order, and ends with a newline.
   */
  lemma SlackMessageLines(e: EnquiryRecord, localTime: string -> string)
    requires forall v <- LineValues(ResolveSlackFields(e, localTime)) :: SingleLine(v)
    ensures var lines := Split(FormatEnquiryForSlack(e, localTime), "\n");
      && |lines| == |Labels| + 3
      && lines[0] == Header && lines[1] == "" && lines[|Labels| + 2] == ""
      && forall i :: 0 <= i < |Labels| ==>
           lines[i + 2] == LabelledLine(Labels[i], LineValues(ResolveSlackFields(e, localTime))[i])
  {
    var f := ResolveSlackFields(e, localTime);
    var ls := MessageLines(f);
    MessageLinesSingle(f);
    RenderSlackIsLines(f);
    SplitLines(ls, '\n');
    var lines := ls + [""];
    assert Split(FormatEnquiryForSlack(e, localTime), "\n") == lines;
    forall i | 0 <= i < |Labels|
      ensures lines[i + 2] == LabelledLine(Labels[i], LineValues(f)[i])
    {
      MessageLinesAt(f, i);
    }
  }

  datatype PostOutcome = Posted | PostFailed(reason: string)

  /** What one send did: its boolean result and the texts it posted, in order. */
  datatype SlackRun = SlackRun(sent: bool, posts: seq<string>)

  /** `sendEnquiryNotificationToSlack(enquiry)`: posts once and reports whether the POST succeeded. */
  function SendEnquiryNotificationToSlack(e: EnquiryRecord, localTime: string -> string,
                                          webhook: string -> PostOutcome): (run: SlackRun)
    ensures run.posts == [FormatEnquiryForSlack(e, localTime)]
    ensures run.sent <==> webhook(run.posts[0]).Posted?
  {
    var text := FormatEnquiryForSlack(e, localTime);
    match webhook(text)
    case Posted => SlackRun(true, [text])
    case PostFailed(_) => SlackRun(false, [text])
  }
}

=== FILE: template_loader.dfy ===
/**
  Email template loading (src/notifications/templates/templateLoader.ts).

  A template is the content of `<name>.html`; each entry of the data object, in
  insertion order, rewrites every `{{key}}` token of the current text with the
  entry's value, or with the empty string when the value is falsy. The file
  system is a map from file name to content; a name it lacks is a read failure.
 */
module TemplateLoader {
  import opened Js
  import opened Text

  predicate IsKeyStart(c: char) {
    'a' <= c <= 'z' || 'A' <= c <= 'Z' || c == '_'
  }

  predicate IsKeyChar(c: char) {
    IsKeyStart(c) || '0' <= c <= '9'
  }

  /**
    A key that the placeholder regular expression `{{key}}` matches literally:
    an identifier, so it holds no metacharacter and cannot read as a `{n}` quantifier.
   */
  predicate PlainKey(k: string) {
    |k| > 0 && IsKeyStart(k[0]) && forall i :: 0 <= i < |k| ==> IsKeyChar(k[i])
  }

  /** One `[key, value]` pair of `Object.entries(data)`. */
  datatype Entry = Entry(key: string, value: Option<string>)

  predicate PlainKeys(data: seq<Entry>) {
    forall i :: 0 <= i < |data| ==> PlainKey(data[i].key)
  }

  function Placeholder(key: string): (p: string)
    ensures |p| == |key| + 4
  {
    "{{" + key + "}}"
  }

  /** The substitution loop: a left fold of global replacements over the entries. */
  function Substitute(template: string, data: seq<Entry>): string
    requires PlainKeys(data)
    decreases |data|
  {
    if |data| == 0 then template
    else Substitute(ReplaceAll(template, Placeholder(data[0].key), OrElse(data[0].value, "")), data[1..])
  }

  const TemplateErrorPrefix := "Failed to load email template: "

  /** `loadTemplate(name, data)`: reads `<name>.html` and substitutes, or throws a fixed error. */
  function LoadTemplate(name: string, files: map<string, string>, data: seq<Entry>): (r: Result<string, string>)
    requires PlainKeys(data)
    ensures r.Err? <==> name + ".html" !in files
    ensures r.Err? ==> r.error == TemplateErrorPrefix + name
    ensures r.Ok? ==> r.value == Substitute(files[name + ".html"], data)
  {
    var path := name + ".html";
    if path !in files then Err(TemplateErrorPrefix + name)
    else Ok(Substitute(files[path], data))
  }

  /** Substituting a concatenation of entry lists is substituting one list after the other. */
  lemma {:induction false} SubstituteAppend(template: string, d1: seq<Entry>, d2: seq<Entry>)
    requires PlainKeys(d1) && PlainKeys(d2)
    ensures PlainKeys(d1 + d2)
    ensures Substitute(template, d1 + d2) == Substitute(Substitute(template, d1), d2)
    decreases |d1|
  {
    if |d1| == 0 {
      assert d1 + d2 == d2;
    } else {
      var t' := ReplaceAll(template, Placeholder(d1[0].key), OrElse(d1[0].value, ""));
      assert (d1 + d2)[0] == d1[0];
      assert (d1 + d2)[1..] == d1[1..] + d2;
      SubstituteAppend(t', d1[1..], d2);
    }
  }

  /**
    The loop is a left fold: the last entry rewrites the text the earlier entries
    produced, including any `{{key}}` tokens their values introduced.
   */
  lemma SubstituteLastEntry(template: string, data: seq<Entry>, e: Entry)
    requires PlainKeys(data) && PlainKey(e.key)
    ensures PlainKeys(data + [e])
    ensures Substitute(template, data + [e])
         == Join(Split(Substitute(template, data), Placeholder(e.key)), OrElse(e.value, ""))
  {
    SubstituteAppend(template, data, [e]);
    ReplaceAllIsJoinOfSplit(Substitute(template, data), Placeholder(e.key), OrElse(e.value, ""));
  }

  /**
    A single entry cuts the template at every `{{key}}` token and glues the pieces
    with the value, or with nothing when the value is falsy.
   */
  lemma SubstituteOneEntry(template: string, e: Entry)
    requires PlainKey(e.key)
    ensures Substitute(template, [e]) == Join(Split(template, Placeholder(e.key)), OrElse(e.value, ""))
    ensures !Truthy(e.value) ==> Substitute(template, [e]) == Join(Split(template, Placeholder(e.key)), "")
  {
    ReplaceAllIsJoinOfSplit(template, Placeholder(e.key), OrElse(e.value, ""));
  }

  /** A template holding none of the data's tokens comes back unchanged. */
  lemma {:induction false} SubstituteWithoutTokens(template: string, data: seq<Entry>)
    requires PlainKeys(data)
    requires forall i :: 0 <= i < |data| ==> !Contains(template, Placeholder(data[i].key))
    ensures Substitute(template, data) == template
    decreases |data|
  {
    if |data| > 0 {
      ReplaceAllWithoutPattern(template, Placeholder(data[0].key), OrElse(data[0].value, ""));
      SubstituteWithoutTokens(template, data[1..]);
    }
  }

  lemma PlaceholderBraces(k: string, x: int)
    requires PlainKey(k) && 0 <= x < |Placeholder(k)|
    ensures Placeholder(k)[x] == '{' <==> x < 2
    ensures Placeholder(k)[x] == '}' <==> x >= |k| + 2
  {
    if 2 <= x < |k| + 2 {
      assert Placeholder(k)[x] == k[x - 2];
    }
  }

  /** Two tokens of identifier keys that overlap in a text are the same token. */
  lemma PlaceholdersDoNotOverlap(s: string, k: string, j: string, i: nat, m: nat)
    requires PlainKey(k) && PlainKey(j)
    requires OccursAt(s, Placeholder(k), i) && OccursAt(s, Placeholder(j), m)
    requires i <= m < i + |Placeholder(k)|
    ensures k == j && i == m
  {
    var P, Q := Placeholder(k), Placeholder(j);
    assert s[i..i + |P|] == P && s[m..m + |Q|] == Q;
    assert s[m + 1] == Q[1] == '{' by {
      assert s[m..m + |Q|][1] == s[m + 1];
    }
    assert m + 1 < i + |P| by {
      assert s[m] == Q[0] && s[m] == P[m - i] by {
        assert s[m..m + |Q|][0] == s[m];
        assert s[i..i + |P|][m - i] == s[m];
      }
      PlaceholderBraces(k, m - i);
    }
    assert s[m + 1] == P[m + 1 - i] by {
      assert s[i..i + |P|][m + 1 - i] == s[m + 1];
    }
    PlaceholderBraces(k, m + 1 - i);
    assert m == i;
    var n := if |k| < |j| then |k| else |j|;
    assert s[i + 2 + n] == P[2 + n] && s[i + 2 + n] == Q[2 + n] by {
      assert s[i..i + |P|][2 + n] == s[i + 2 + n];
      assert s[i..i + |Q|][2 + n] == s[i + 2 + n];
    }
    PlaceholderBraces(k, 2 + n);
    PlaceholderBraces(j, 2 + n);
    assert |k| == |j|;
    assert P == Q;
    assert k == P[2..2 + |k|] && j == Q[2..2 + |j|];
  }

  /** Tokens of two different identifier keys in one text lie apart. */
  lemma TokensApart(s: string, k: string, j: string, i: nat, m: nat)
    requires PlainKey(k) && PlainKey(j) && k != j
    requires OccursAt(s, Placeholder(k), i) && OccursAt(s, Placeholder(j), m)
    ensures m + |Placeholder(j)| <= i || i + |Placeholder(k)| <= m
  {
    if i <= m < i + |Placeholder(k)| {
      PlaceholdersDoNotOverlap(s, k, j, i, m);
      assert false;
    } else if m < i < m + |Placeholder(j)| {
      PlaceholdersDoNotOverlap(s, j, k, m, i);
      assert false;
    }
  }

  /** In any text, the tokens of two different identifier keys never overlap. */
  lemma KeyTokensApart(s: string, k: string, j: string)
    requires PlainKey(k) && PlainKey(j) && k != j
    ensures Apart(s, Placeholder(k), Placeholder(j))
  {
    forall i: nat, m: nat | OccursAt(s, Placeholder(k), i) && OccursAt(s, Placeholder(j), m)
      ensures m + |Placeholder(j)| <= i || i + |Placeholder(k)| <= m
    {
      TokensApart(s, k, j, i, m);
    }
  }

  /** Replacing one key's tokens leaves every token of a different key in place. */
  lemma ReplaceAllKeepsOtherToken(s: string, k: string, j: string, r: string)
    requires PlainKey(k) && PlainKey(j) && k != j
    requires Contains(s, Placeholder(j))
    ensures Contains(ReplaceAll(s, Placeholder(k), r), Placeholder(j))
  {
    KeyTokensApart(s, k, j);
    var m: nat :| OccursAt(s, Placeholder(j), m);
    var m' := ReplaceAllKeepsApart(s, Placeholder(k), Placeholder(j), r, m);
  }

  /**
    A token whose key the data does not hold survives substitution verbatim,
    whatever the values are.
   */
  lemma {:induction false} AbsentKeyTokenKept(template: string, data: seq<Entry>, k: string)
    requires PlainKeys(data) && PlainKey(k)
    requires forall i :: 0 <= i < |data| ==> data[i].key != k
    requires Contains(template, Placeholder(k))
    ensures Contains(Substitute(template, data), Placeholder(k))
    decreases |data|
  {
    if |data| > 0 {
      var t' := ReplaceAll(template, Placeholder(data[0].key), OrElse(data[0].value, ""));
      ReplaceAllKeepsOtherToken(template, data[0].key, k, OrElse(data[0].value, ""));
      AbsentKeyTokenKept(t', data[1..], k);
    }
  }

  /**
    Two separate tokens of a key the data does not hold are both still in the
    result, separate and in their original order: substitution neither drops
    nor merges them.
   */
  lemma {:induction false} AbsentKeyTokensKeptInOrder(template: string, data: seq<Entry>, k: string, m1: nat, m2: nat)
    returns (n1: nat, n2: nat)
    requires PlainKeys(data) && PlainKey(k)
    requires forall i :: 0 <= i < |data| ==> data[i].key != k
    requires OccursAt(template, Placeholder(k), m1) && OccursAt(template, Placeholder(k), m2)
    requires m1 + |Placeholder(k)| <= m2
    ensures OccursAt(Substitute(template, data), Placeholder(k), n1)
    ensures OccursAt(Substitute(template, data), Placeholder(k), n2)
    ensures n1 + |Placeholder(k)| <= n2
    decreases |data|
  {
    if |data| == 0 {
      n1, n2 := m1, m2;
    } else {
      var r := OrElse(data[0].value, "");
      var t' := ReplaceAll(template, Placeholder(data[0].key), r);
      KeyTokensApart(template, data[0].key, k);
      var a, b := ReplaceAllKeepsTwo(template, Placeholder(data[0].key), Placeholder(k), r, m1, m2);
      n1, n2 := AbsentKeyTokensKeptInOrder(t', data[1..], k, a, b);
    }
  }

  /** An earlier value that carries a later key's token is rewritten by the later entry. */
  lemma ChainedSubstitution()
    ensures Substitute("{{a}}", [Entry("a", Some("{{b}}")), Entry("b", Some("x"))]) == "x"
  {
    var d := [Entry("a", Some("{{b}}")), Entry("b", Some("x"))];
    assert OccursAt("{{a}}", Placeholder("a"), 0);
    assert ReplaceAll("{{a}}", "{{a}}", "{{b}}") == "{{b}}" by {
      assert IndexOf("{{a}}", "{{a}}", 0) == 0;
      assert "{{a}}"[5..] == "";
    }
    assert ReplaceAll("{{b}}", "{{b}}", "x") == "x" by {
      assert IndexOf("{{b}}", "{{b}}", 0) == 0;
      assert "{{b}}"[5..] == "";
    }
    assert d[1..] == [Entry("b", Some("x"))];
  }
}

=== FILE: text.dfy ===
/**
  The string operations the notification code uses, with JavaScript's semantics
  for a literal (non-empty) pattern: `indexOf`, a global replace that scans left
  to right and never rescans inserted text, and `split`.
 */
module Text {

  /** `p` occurs in `s` starting at index `i`. */
  predicate OccursAt(s: string, p: string, i: nat) {
    i + |p| <= |s| && s[i..i + |p|] == p
  }

  ghost predicate Contains(s: string, p: string) {
    exists i: nat :: OccursAt(s, p, i)
  }

  /** `s.indexOf(p, from)`: an occurrence of `p` at or after `from`, or -1 (first-ness is `IndexOfFirst`). */
  function IndexOf(s: string, p: string, from: nat): (r: int)
    requires |p| > 0 && from <= |s|
    ensures r == -1 || (from <= r && OccursAt(s, p, r))
    decreases |s| - from
  {
    if from + |p| > |s| then -1
    else if s[from..from + |p|] == p then from
    else IndexOf(s, p, from + 1)
  }

  /**
    `s.replace(/p/g, r)` for a pattern without metacharacters and a replacement
    without `$` patterns: each leftmost occurrence is replaced and scanning resumes
    after it, in the original text.
   */
  function ReplaceAll(s: string, p: string, r: string): string
    requires |p| > 0
    decreases |s|
  {
    var i := IndexOf(s, p, 0);
    if i < 0 then s else Cat(s[..i], r, ReplaceAll(s[i + |p|..], p, r))
  }

  /** No occurrence of `p` lies between `from` and the index found: it is the first one. */
  lemma {:induction false} IndexOfFirst(s: string, p: string, from: nat)
    requires |p| > 0 && from <= |s|
    ensures forall j: nat :: from <= j && (IndexOf(s, p, from) == -1 || j < IndexOf(s, p, from)) ==> !OccursAt(s, p, j)
    decreases |s| - from
  {
    if from + |p| <= |s| && s[from..from + |p|] != p {
      IndexOfFirst(s, p, from + 1);
    }
  }

  /** A text without the pattern comes back unchanged. */
  lemma ReplaceAllWithoutPattern(s: string, p: string, r: string)
    requires |p| > 0 && !Contains(s, p)
    ensures ReplaceAll(s, p, r) == s
  {
  }

  /** The three parts a replacement step glues together: text before the match, replacement, rewritten rest. */
  function Cat(before: string, r: string, rest: string): string {
    before + r + rest
  }

  /** `s.split(sep)` for a non-empty separator string. */
  function Split(s: string, sep: string): (pieces: seq<string>)
    requires |sep| > 0
    ensures |pieces| >= 1
    decreases |s|
  {
    var i := IndexOf(s, sep, 0);
    if i < 0 then [s] else [s[..i]] + Split(s[i + |sep|..], sep)
  }

  /** `pieces.join(sep)`. */
  function Join(pieces: seq<string>, sep: string): string {
    if |pieces| == 0 then ""
    else if |pieces| == 1 then pieces[0]
    else pieces[0] + sep + Join(pieces[1..], sep)
  }

  /** Each string followed by the terminator `c`, all concatenated. */
  function Lines(ls: seq<string>, c: char): string {
    if |ls| == 0 then "" else ls[0] + [c] + Lines(ls[1..], c)
  }

  lemma OccursAtChar(s: string, c: char, j: nat)
    ensures OccursAt(s, [c], j) <==> j < |s| && s[j] == c
  {
    if j < |s| {
      assert s[j..j + 1] == [s[j]];
    }
  }

  lemma CharOfContains(s: string, c: char)
    requires !Contains(s, [c])
    ensures c !in s
  {
    forall j | 0 <= j < |s|
      ensures s[j] != c
    {
      OccursAtChar(s, c, j);
    }
  }

  /** An occurrence cuts the string into the text before it, the pattern and the text after it. */
  lemma CutAt(s: string, p: string, i: nat)
    requires OccursAt(s, p, i)
    ensures s == s[..i] + p + s[i + |p|..]
  {
    assert s == s[..i] + s[i..i + |p|] + s[i + |p|..];
  }

  lemma OccursInPrefix(s: string, q: string, m: nat, n: nat)
    requires OccursAt(s, q, m) && m + |q| <= n <= |s|
    ensures OccursAt(s[..n], q, m)
  {
    assert s[..n][m..m + |q|] == s[m..m + |q|];
  }

  lemma OccursInSuffix(s: string, q: string, m: nat, n: nat)
    requires OccursAt(s, q, m) && n <= m
    ensures OccursAt(s[n..], q, m - n)
  {
    assert s[n..][m - n..m - n + |q|] == s[m..m + |q|];
  }

  lemma OccursInConcat(a: string, b: string, q: string, m: nat)
    ensures OccursAt(a, q, m) ==> OccursAt(a + b, q, m)
    ensures OccursAt(b, q, m) ==> OccursAt(a + b, q, |a| + m)
  {
    if OccursAt(a, q, m) {
      assert (a + b)[m..m + |q|] == a[m..m + |q|];
    }
    if OccursAt(b, q, m) {
      assert (a + b)[|a| + m..|a| + m + |q|] == b[m..m + |q|];
    }
  }

  lemma OccursFromSuffix(s: string, q: string, m: nat, n: nat)
    requires n <= |s| && OccursAt(s[n..], q, m)
    ensures OccursAt(s, q, n + m)
  {
    assert s[n..][m..m + |q|] == s[n + m..n + m + |q|];
  }

  /** No occurrence of `q` in `s` overlaps an occurrence of `p`. */
  ghost predicate Apart(s: string, p: string, q: string) {
    forall i: nat, m: nat :: OccursAt(s, p, i) && OccursAt(s, q, m) ==> m + |q| <= i || i + |p| <= m
  }

  lemma ApartInSuffix(s: string, p: string, q: string, n: nat)
    requires n <= |s| && Apart(s, p, q)
    ensures Apart(s[n..], p, q)
  {
    forall i: nat, m: nat | OccursAt(s[n..], p, i) && OccursAt(s[n..], q, m)
      ensures m + |q| <= i || i + |p| <= m
    {
      OccursFromSuffix(s, p, i, n);
      OccursFromSuffix(s, q, m, n);
    }
  }

  /** Occurrences in the first or last part of a `Cat` are occurrences of the whole. */
  lemma OccursInCat(a: string, b: string, c: string, q: string, m: nat)
    ensures OccursAt(a, q, m) ==> OccursAt(Cat(a, b, c), q, m)
    ensures OccursAt(c, q, m) ==> OccursAt(Cat(a, b, c), q, |a| + |b| + m)
  {
    OccursInConcat(a, b, q, m);
    OccursInConcat(a + b, c, q, m);
  }

  /** An occurrence that ends before the first cut is left where it was. */
  lemma KeptBeforeCut(s: string, p: string, q: string, r: string, i: int, m: nat)
    requires |p| > 0 && i == IndexOf(s, p, 0) && i >= 0
    requires OccursAt(s, q, m) && m + |q| <= i
    ensures OccursAt(ReplaceAll(s, p, r), q, m)
  {
    assert OccursAt(s, p, i);
    OccursInPrefix(s, q, m, i);
    OccursInCat(s[..i], r, ReplaceAll(s[i + |p|..], p, r), q, m);
  }

  /** An occurrence in the rewritten rest lands at some position of the whole rewritten text. */
  lemma KeptAfterCut(s: string, p: string, q: string, r: string, i: int, m1: nat) returns (m': nat)
    requires |p| > 0 && i == IndexOf(s, p, 0) && i >= 0
    requires i + |p| <= |s| && OccursAt(ReplaceAll(s[i + |p|..], p, r), q, m1)
    ensures OccursAt(ReplaceAll(s, p, r), q, m') && m' == i + |r| + m1
  {
    OccursInCat(s[..i], r, ReplaceAll(s[i + |p|..], p, r), q, m1);
    m' := |s[..i]| + |r| + m1;
  }

  lemma ApartAt(s: string, p: string, q: string, i: nat, m: nat)
    requires Apart(s, p, q) && OccursAt(s, p, i) && OccursAt(s, q, m)
    ensures m + |q| <= i || i + |p| <= m
  {
  }

  /** An occurrence that does not end before the first cut lies wholly in the text after it. */
  lemma ApartStep(s: string, p: string, q: string, i: int, m: nat) returns (m0: nat)
    requires |p| > 0 && i == IndexOf(s, p, 0) && i >= 0
    requires Apart(s, p, q) && OccursAt(s, q, m) && i < m + |q|
    ensures i + |p| <= |s| && Apart(s[i + |p|..], p, q) && OccursAt(s[i + |p|..], q, m0)
    ensures m0 == m - (i + |p|)
  {
    ApartAt(s, p, q, i, m);
    OccursInSuffix(s, q, m, i + |p|);
    ApartInSuffix(s, p, q, i + |p|);
    m0 := m - (i + |p|);
  }

  /**
    Replacing `p` keeps an occurrence of a pattern `q` that never overlaps `p` in
    the text; `m'` is where it lands.
   */
  lemma {:induction false} ReplaceAllKeepsApart(s: string, p: string, q: string, r: string, m: nat)
    returns (m': nat)
    requires |p| > 0 && Apart(s, p, q) && OccursAt(s, q, m)
    ensures OccursAt(ReplaceAll(s, p, r), q, m')
    decreases |s|
  {
    var i := IndexOf(s, p, 0);
    if i < 0 {
      m' := m;
    } else if m + |q| <= i {
      KeptBeforeCut(s, p, q, r, i, m);
      m' := m;
    } else {
      var m0 := ApartStep(s, p, q, i, m);
      var m1 := ReplaceAllKeepsApart(s[i + |p|..], p, q, r, m0);
      m' := KeptAfterCut(s, p, q, r, i, m1);
    }
  }

  /**
    Two occurrences of a pattern `q` that never overlaps `p`, one after the
    other, are both kept by the replace and stay in the same order.
   */
  lemma {:induction false} ReplaceAllKeepsTwo(s: string, p: string, q: string, r: string, m1: nat, m2: nat)
    returns (n1: nat, n2: nat)
    requires |p| > 0 && Apart(s, p, q) && OccursAt(s, q, m1) && OccursAt(s, q, m2) && m1 + |q| <= m2
    ensures OccursAt(ReplaceAll(s, p, r), q, n1) && OccursAt(ReplaceAll(s, p, r), q, n2)
    ensures n1 + |q| <= n2
    decreases |s|
  {
    var i := IndexOf(s, p, 0);
    if i < 0 {
      n1, n2 := m1, m2;
    } else if m2 + |q| <= i {
      KeptBeforeCut(s, p, q, r, i, m1);
      KeptBeforeCut(s, p, q, r, i, m2);
      n1, n2 := m1, m2;
    } else if m1 + |q| <= i {
      KeptBeforeCut(s, p, q, r, i, m1);
      var m0 := ApartStep(s, p, q, i, m2);
      var k := ReplaceAllKeepsApart(s[i + |p|..], p, q, r, m0);
      n1 := m1;
      n2 := KeptAfterCut(s, p, q, r, i, k);
    } else {
      var a := ApartStep(s, p, q, i, m1);
      var b := ApartStep(s, p, q, i, m2);
      var k1, k2 := ReplaceAllKeepsTwo(s[i + |p|..], p, q, r, a, b);
      n1 := KeptAfterCut(s, p, q, r, i, k1);
      n2 := KeptAfterCut(s, p, q, r, i, k2);
    }
  }

  lemma JoinCons(ps: seq<string>, sep: string)
    requires |ps| >= 2
    ensures Join(ps, sep) == ps[0] + sep + Join(ps[1..], sep)
  {
  }

  /** Gluing the pieces back together with the separator gives the original string. */
  lemma {:induction false} JoinSplit(s: string, sep: string)
    requires |sep| > 0
    ensures Join(Split(s, sep), sep) == s
    decreases |s|
  {
    var i := IndexOf(s, sep, 0);
    if i >= 0 {
      var rest := s[i + |sep|..];
      var tail := Split(rest, sep);
      JoinSplit(rest, sep);
      var ps := Split(s, sep);
      assert ps == [s[..i]] + tail;
      assert ps[1..] == tail;
      JoinCons(ps, sep);
      CutAt(s, sep, i);
    }
  }

  /** No piece of a split contains the separator: every occurrence was a cut point. */
  lemma {:induction false} SplitPiecesAvoidSeparator(s: string, sep: string)
    requires |sep| > 0
    ensures forall k :: 0 <= k < |Split(s, sep)| ==> !Contains(Split(s, sep)[k], sep)
    decreases |s|
  {
    var i := IndexOf(s, sep, 0);
    IndexOfFirst(s, sep, 0);
    if i >= 0 {
      var rest := s[i + |sep|..];
      SplitPiecesAvoidSeparator(rest, sep);
      forall j: nat
        ensures !OccursAt(s[..i], sep, j)
      {
        if OccursAt(s[..i], sep, j) {
          assert s[..i][j..j + |sep|] == s[j..j + |sep|];
          assert OccursAt(s, sep, j);
        }
      }
      var ps := Split(s, sep);
      assert ps == [s[..i]] + Split(rest, sep);
      forall k | 0 <= k < |ps|
        ensures !Contains(ps[k], sep)
      {
        if k > 0 {
          assert ps[k] == Split(rest, sep)[k - 1];
        }
      }
    }
  }

  /** Replacing every occurrence is splitting on the pattern and joining with the replacement. */
  lemma {:induction false} ReplaceAllIsJoinOfSplit(s: string, p: string, r: string)
    requires |p| > 0
    ensures ReplaceAll(s, p, r) == Join(Split(s, p), r)
    decreases |s|
  {
    var i := IndexOf(s, p, 0);
    if i >= 0 {
      var rest := s[i + |p|..];
      ReplaceAllIsJoinOfSplit(rest, p, r);
      var ps := Split(s, p);
      assert ps == [s[..i]] + Split(rest, p);
      assert ps[1..] == Split(rest, p);
    }
  }

  lemma SplitWithoutSeparator(a: string, c: char)
    requires c !in a
    ensures Split(a, [c]) == [a]
  {
    forall j: nat
      ensures !OccursAt(a, [c], j)
    {
      OccursAtChar(a, c, j);
    }
  }

  /** A one-character separator first met right after `a` cuts there. */
  lemma SplitAtFirst(a: string, c: char, b: string)
    requires c !in a
    ensures Split(a + [c] + b, [c]) == [a] + Split(b, [c])
  {
    var s := a + [c] + b;
    OccursAtChar(s, c, |a|);
    forall j: nat | j < |a|
      ensures !OccursAt(s, [c], j)
    {
      OccursAtChar(s, c, j);
    }
    var i := IndexOf(s, [c], 0);
    IndexOfFirst(s, [c], 0);
    assert i == |a|;
    assert s[..i] == a;
    assert s[i + 1..] == b;
  }

  /** Joining with a one-character separator that no piece contains, then splitting, gives the pieces back. */
  lemma {:induction false} SplitJoin(pieces: seq<string>, c: char)
    requires |pieces| >= 1
    requires forall k :: 0 <= k < |pieces| ==> c !in pieces[k]
    ensures Split(Join(pieces, [c]), [c]) == pieces
  {
    if |pieces| == 1 {
      SplitWithoutSeparator(pieces[0], c);
    } else {
      SplitJoin(pieces[1..], c);
      SplitAtFirst(pieces[0], c, Join(pieces[1..], [c]));
    }
  }

  /** Splitting terminated lines on the terminator gives the lines and a trailing empty piece. */
  lemma {:induction false} SplitLines(ls: seq<string>, c: char)
    requires forall k :: 0 <= k < |ls| ==> c !in ls[k]
    ensures Split(Lines(ls, c), [c]) == ls + [""]
  {
    if |ls| == 0 {
      SplitWithoutSeparator("", c);
    } else {
      SplitLines(ls[1..], c);
      SplitAtFirst(ls[0], c, Lines(ls[1..], c));
      assert ls == [ls[0]] + ls[1..];
    }
  }
}
